=== FILE: README.md ===
# dify-go response handling, modelled in Dafny

This project models the response-handling core of `dify-go`, a Go client
for the Dify generative-AI service. Two operations can answer in two modes:
`RunWorkflow` (`/workflows/run`) and `SendCompletionMessage`
(`/completion-messages`).

- In **blocking** mode the call performs one HTTP exchange and returns a
  decoded reply or an error.
- In **streaming** mode the call returns a channel at once. A background
  task performs the exchange, reads the `text/event-stream` body line by
  line, and sends one chunk per `data: ` line. It closes the channel when it
  is done.

`GetWorkflowStatus` and `StopTask` use the same response classifier. Around
these sit the client configuration (`NewClient`, `SetTimeout`), URL
building, header injection and the `APIError` text.

The model is functional. The HTTP call becomes a `Transport` value: either
a failure, or a status with a `Body`. A `Body` is the text that could be
read plus how reading ended. JSON encoding and decoding are uninterpreted
function parameters that return a result or an error. A streaming call is
described by the history of its channel: the chunks sent, in order, then
`Close`. Cancellation is a parameter naming the guarded send at which the
caller's context wins.

Modules, leaves first:

- `Wrappers`: `Option` and `Result`.
- `Decimal`: `%d` rendering of integers and its inverse.
- `Errors`: `APIError` and its `Error()` text.
- `Client`: configuration, URL building, headers and requests.
- `Models`: the `Chunk` type.
- `Responses`: transport outcome, the error taxonomy and the classifier.
- `LineReader`: `ReadString('\n')` splitting.
- `EventStream`: the streaming task, both as a reference function and as
  the loop the source writes.
- `StreamProperties`: the streaming guarantees.
- `Dispatch`: the mode dispatcher shared by both streaming operations.
- `Workflow`, `Completion`, `Stop`: the operations.

Both streaming operations are instances of one generic `Dispatch.Exchange`.
The two chunk types are modelled as one `Chunk` type. `workflow.go` names a
chunk type that is not defined anywhere. Both `workflow.go` and
`completion.go` declare the channel variable receive-only at line 19, then
assign it at line 39, close it at line 41 and send on it at lines 44, 55,
61, 74, 89 and 97. Both also use `bytes.NewReader` without importing
`bytes` (line 28). So neither file compiles as written.
The model follows the evident intent: one chunk type, on a channel owned by
the producing task.

Where the code departs from the `text/event-stream` format and from a
cancellable stream, the model follows the code.

- Only the send of a decoded chunk is raced against cancellation, inside a
  `select`. The error-chunk sends are plain blocking sends. In the model,
  cancellation can cut the trace only at a wire chunk (`Data`), never at an
  error chunk (`Notice`).
- A line counts only if it starts with the exact six characters `data: `.
  Multi-line data fields are not joined, and a blank line does not dispatch
  anything.
- An unterminated last line is dropped, even when it is a well-formed data
  line.

## Model

| member | source | states |
|---|---|---|
| Decimal.NatText | errors.go:14 | `%d` of a natural number: at least one digit, only digits, and no leading zero except for 0 itself |
| Decimal.IntText | errors.go:14 | `%d` of an int: a leading '-' exactly when the value is negative, then digits |
| Decimal.ParseNatText | errors.go:14 | parsing the printed natural numeral gives back the number |
| Decimal.ParseIntText | errors.go:14 | the printed integer is a numeral, and parsing it gives back the integer |
| Errors.ErrorText | errors.go:13-15 | `Error()` is "APIError: ", then the code, " - ", the message, " (status code: ", the status in base 10 and ')', each part at its fixed position |
| Errors.StatusRecoverable | errors.go:14 | whatever the code and message contain, the status code can be read back from the end of the `Error()` text |
| Client.NewClient | client.go:18-29 | base URL and key are stored verbatim; RetryMax is 3; the minimum wait of 500 ms is positive and at most the 2 s maximum |
| Client.SetTimeout | client.go:32-34 | only the timeout changes; base URL, key and retry settings are kept |
| Client.SetTimeoutLastWins | client.go:32-34 | setting the timeout twice equals setting it once to the last value |
| Client.BuildURL | client.go:37-39 | the URL splits into the base URL followed by the endpoint, with nothing inserted between them |
| Client.BuildURLInjective | client.go:37-39 | for one client, equal URLs come only from equal endpoints |
| Client.BuildURLDistinct | client.go:37-39 | for one client, distinct endpoints give distinct URLs |
| Client.SetHeader | client.go:43-44 | `Header.Set` leaves exactly one value under the key, replacing earlier values, and keeps every other key unchanged |
| Client.AddHeaders | client.go:42-45 | Authorization becomes "Bearer " + key and Content-Type becomes "application/json"; other headers are unchanged |
| Client.AddHeadersIdempotent | client.go:42-45 | adding the headers twice equals adding them once |
| Client.NewRequest | workflow.go:27-34 | a new request targets the built URL and carries exactly the two client headers: "Bearer " + key and "application/json" |
| Models.ErrorChunk | workflow.go:44-47 | a client-made chunk has event "error" and the given code and message; every other field is empty or zero |
| Responses.StatusText | workflow.go:115 | the fallback text is "status code: " followed by a numeral that parses back to the status |
| Responses.FailureText | workflow.go:115-126 | the `Error()` text of each failure: an APIError's full `Error()` text (code, message and status in place), from which its status can be read back; "status code: N" with N recoverable; a transport, decode or encode error's own message; "invalid response_mode: " followed by the mode |
| Responses.Classify | workflow.go:112-124 | a value only on status 200, and then it is the decoder's value; on 200 a decode failure gives the decoder's error; any other status gives an APIError or status-only error |
| Responses.Complete | workflow.go:106-124 | a transport failure becomes that error; otherwise the response is classified |
| Responses.ClassifyNonSuccess | workflow.go:151-157 | non-200: the decoded APIError is returned unchanged, its status code not reconciled; otherwise the error reads "status code: N" |
| Responses.ClassifySuccess | workflow.go:159-164 | status 200: the APIError decoder is never consulted; a value exists exactly when the reply decodes |
| LineReader.NewlineIndex | workflow.go:71 | finds the first '\n': there is a '\n' at the index and none before it, or there is no '\n' at all |
| LineReader.Lines | workflow.go:69-80 | every line returned ends with its only '\n' |
| LineReader.Fragment | workflow.go:71-79 | the part after the last complete line has no '\n' |
| LineReader.LinesCover | workflow.go:69-80 | the lines joined, followed by the fragment, give back the whole body |
| LineReader.LinesOfJoin | workflow.go:69-80 | splitting complete lines followed by a fragment gives back exactly those lines and that fragment |
| LineReader.FragmentDropped | workflow.go:71-79 | an unterminated trailing fragment never becomes a line |
| EventStream.Payload | workflow.go:82-86 | a line yields a payload only if the line is "data: " followed by that payload |
| EventStream.PayloadOfDataLine | workflow.go:82-86 | a line "data: " + p hands the decoder exactly p, trailing '\n' included |
| EventStream.LineEmission | workflow.go:82-94 | a line yields one entry exactly when it starts with "data: "; a wire chunk is what the rest of the line decodes to; an error chunk carries the decoder's message |
| EventStream.LineEmissions | workflow.go:70-101 | at most one entry per line, and none at all from lines that are not data lines |
| EventStream.EndEmissions | workflow.go:72-79 | a clean end of stream adds nothing; a read error adds one error chunk with its message and no code |
| EventStream.BodyEmissions | workflow.go:69-101 | at most one entry per complete line plus one for a read error, which comes last |
| EventStream.StatusChunk | workflow.go:52-66 | the non-200 error chunk carries the APIError's code and message, or no code and "status code: N" with N recoverable |
| EventStream.Emissions | workflow.go:42-101 | a transport failure or non-200 status gives exactly one error chunk; wire chunks come only from a 200 response |
| EventStream.Deliver | workflow.go:96-100 | never delivers more chunks than there are entries |
| EventStream.Frame | workflow.go:41 | the channel history is one send per chunk, in order, then a single close |
| EventStream.StreamTrace | workflow.go:40-101 | on every path the channel is closed exactly once, as its last event |
| EventStream.HandleLine | workflow.go:82-100 | one line read by the loop does what the reference definition says: skip, an error chunk, a send, or a stop on cancellation |
| EventStream.ReadLoop | workflow.go:69-101 | the `ReadString` loop sends exactly the chunks the reference definition delivers for the body |
| EventStream.Pump | workflow.go:40-101 | the whole background task, with its early error returns, yields exactly the reference trace |
| StreamProperties.LineRule | workflow.go:82-94 | a line contributes an entry exactly when its length is at least 6 and it starts with "data: "; that entry is the decoded chunk or one error chunk with the decoder's message |
| StreamProperties.LineEmissionsAppend | workflow.go:70-101 | lines are handled independently: the entries for a concatenation of lines are the entries of each part, in order |
| StreamProperties.MalformedLineReported | workflow.go:88-94 | a payload that fails to decode gives one error chunk at that line's position, and later lines are still handled |
| StreamProperties.WellFormedLines | workflow.go:82-100 | N well-formed data lines give exactly N wire chunks, in line order |
| StreamProperties.DeliverUncancelled | workflow.go:96-100 | without cancellation every entry is delivered, in order |
| StreamProperties.DeliverCut | workflow.go:96-100 | cancellation delivers a prefix of the uncancelled output; the cut falls at the wire chunk whose `select` lost, after exactly k wire chunks |
| StreamProperties.TransportFailureTrace | workflow.go:42-48 | if the HTTP call fails, the trace is one error chunk carrying the failure's message, then the close |
| StreamProperties.NonSuccessTrace | workflow.go:52-67 | any status other than exactly 200 gives one error chunk and the close; the chunk has the APIError's code and message, or empty code and "status code: N" |
| StreamProperties.StreamMatchesBlocking | workflow.go:52-67 | the streaming error chunk for a non-200 response has the code and message of the error a blocking call returns |
| StreamProperties.BodyEnding | workflow.go:71-80 | a clean end of stream adds no chunk; a read error adds exactly one error chunk, after everything read before it |
| StreamProperties.FragmentDiscarded | workflow.go:71-80 | an unterminated final fragment contributes nothing |
| StreamProperties.WellFormedStream | workflow.go:69-101 | status 200, clean end, no cancellation: N well-formed data lines give exactly their N chunks in body order, then the close, with no client error chunk |
| StreamProperties.CancellationTruncates | workflow.go:96-100 | under cancellation the trace still closes exactly once, last, and its chunks are a prefix of the uncancelled trace's |
| StreamProperties.KeepAliveSkipped | workflow.go:82-84 | two data lines around a ": keep-alive" line give the two decoded chunks in order, then the close |
| Dispatch.ParseMode | workflow.go:37-127 | only the exact, case-sensitive names "streaming" and "blocking" are accepted; any other mode is the invalid-mode error |
| Dispatch.ModeRoundTrip | workflow.go:37-127 | each mode's name is accepted as that mode |
| Dispatch.Exchange | workflow.go:17-127 | exactly one of value, channel and error is non-nil; a request is sent only by POST to base URL + endpoint; any channel closes exactly once, last; once the body encodes and the mode is valid, the request sent is the encoded body with the client headers |
| Dispatch.InvalidModeNoCall | completion.go:125-127 | an invalid mode returns "invalid response_mode: <mode>", sends no request, and the reply does not depend on the network |
| Dispatch.StreamingReturnsChannel | completion.go:37-103 | streaming returns only the channel, with no value or error whatever the network does; the network's behaviour shows only on the channel |
| Dispatch.BlockingTransportFailure | completion.go:104-109 | in blocking mode the encoded body is sent with the client headers; a transport failure is returned as the error, and no channel is returned |
| Dispatch.BlockingNonSuccess | completion.go:112-118 | in blocking mode the encoded body is sent; a non-200 status returns the decoded APIError unmodified, or the status-only error |
| Dispatch.BlockingSuccess | completion.go:120-124 | in blocking mode the encoded body is sent; with status 200, exactly one of the decoded reply and the decode error is returned |
| Dispatch.MarshalFailureFirst | workflow.go:21-25 | a request that fails to encode is reported before the mode is examined, and nothing is sent |
| Workflow.RunWorkflow | workflow.go:16-128 | a workflow run sends only to base URL + "/workflows/run" and returns exactly one of value, channel and error |
| Workflow.StatusEndpoint | workflow.go:132 | the status endpoint is "/workflows/run/" followed by the run id |
| Workflow.StatusEndpointInjective | workflow.go:132-133 | different run ids give different status endpoints |
| Workflow.GetWorkflowStatus | workflow.go:131-165 | a bodiless GET, with the client headers, to base URL + "/workflows/run/" + id; a transport failure is returned as is; non-200 gives the decoded APIError unchanged, or the status-only error when the body is not one; on 200 the decoded reply, or the decoder's error |
| Completion.SendCompletionMessage | completion.go:16-128 | a completion message sends only to base URL + "/completion-messages" and returns exactly one of value, channel and error |
| Completion.SameAsWorkflowRun | completion.go:16-17 | given the same inputs, a completion message and a workflow run return the same value, channel and error; their requests differ only in URL |
| Stop.StopEndpoint | stop.go:14 | the stop endpoint is "/chat-messages/", then the task id, then "/stop" |
| Stop.StopEndpointInjective | stop.go:14-15 | different task ids give different stop endpoints |
| Stop.StopBody | stop.go:18-20 | the request body is the one-entry map with "user" set to the user |
| Stop.StopTask | stop.go:13-56 | an encode failure sends nothing; otherwise the request sent is a POST of the encoded body, with the client headers, to base URL + "/chat-messages/<id>/stop"; a transport failure is returned as is; non-200 gives the decoded APIError unchanged, or the status-only error; on 200 the decoded reply, or the decoder's error |

## Left out

- Retries, backoff and the timeout of the retrying HTTP client. These are library behaviour driven by the wall clock. Only the configured values are modelled, and the outcome of the HTTP call is a parameter.
- The HTTP library's default timeout. `NewClient` takes it as a parameter.
- Goroutine scheduling and the unbuffered rendezvous. The stream is modelled as a finite history, and each send is assumed to be received. The code does not guarantee liveness after cancellation: the error-chunk sends are outside the `select`, so a consumer that stops reading can block the task forever. No such guarantee is stated.
- Closing the response body. It is a deferred call on every path after a response; the model has no resources.
- JSON encoding and decoding. These are uninterpreted function parameters, and the JSON grammar is not modelled.
- `retryablehttp.NewRequest` failing on a URL it cannot parse. URL parsing belongs to the library, so request construction is assumed to succeed. A failure of `json.Marshal` is modelled.
- Header-key canonicalisation in `Header.Set`. The two keys set are already canonical.
- Integer width. Status codes and `created_at` are unbounded `int`s; Go's 64-bit `int` cannot overflow on any value a decoder produces here.
- Bytes. A body byte is modelled as one `char`, so lengths and the six-character prefix test are byte-exact.
- The nested `metadata` record of a chunk, which holds floating-point fields. It is not part of the `Chunk` type.
- The file upload operation, the command-line example and the chat operation the example calls. They are outside the response-handling core; the chat operation is not part of this model.
- The remaining request and response record fields. They are opaque: the `extra` part of a request and the generic reply type.

=== FILE: client.dfy ===
/** Client configuration, URL building and the headers every request carries. */
module Client {
  import opened Wrappers

  /** A span of time in nanoseconds, as Go's `time.Duration`. */
  type Duration = int

  const Millisecond: Duration := 1_000_000
  const Second: Duration := 1000 * Millisecond

  /** Retry settings handed to the retrying HTTP client, and its timeout. */
  const RetryMax: int := 3
  const RetryWaitMin: Duration := 500 * Millisecond
  const RetryWaitMax: Duration := 2 * Second

  /** What a client holds: where to send requests, the key that authorises
      them, and the transport's retry and timeout configuration. */
  datatype Config = Config(
    baseURL: string,
    apiKey: string,
    retryMax: int,
    retryWaitMin: Duration,
    retryWaitMax: Duration,
    timeout: Duration)

  /** A new client. The transport's initial timeout is the HTTP library's
      default, which the model takes as a parameter. */
  function NewClient(baseURL: string, apiKey: string, libraryTimeout: Duration): (c: Config)
    ensures c.baseURL == baseURL && c.apiKey == apiKey
    ensures c.retryMax == 3
    ensures c.retryWaitMin == 500_000_000 && c.retryWaitMax == 2_000_000_000
    ensures 0 < c.retryWaitMin <= c.retryWaitMax
    ensures c.timeout == libraryTimeout
  {
    Config(baseURL, apiKey, RetryMax, RetryWaitMin, RetryWaitMax, libraryTimeout)
  }

  /** Changes the transport timeout and nothing else. */
  function SetTimeout(c: Config, timeout: Duration): (c': Config)
    ensures c'.timeout == timeout
    ensures c'.baseURL == c.baseURL && c'.apiKey == c.apiKey
    ensures c'.retryMax == c.retryMax
    ensures c'.retryWaitMin == c.retryWaitMin && c'.retryWaitMax == c.retryWaitMax
  {
    c.(timeout := timeout)
  }

  /** Setting the timeout twice is the same as setting it to the last value. */
  lemma {:induction false} SetTimeoutLastWins(c: Config, t1: Duration, t2: Duration)
    ensures SetTimeout(SetTimeout(c, t1), t2) == SetTimeout(c, t2)
  {
  }

  /** The base URL followed directly by the endpoint: no separator is
      inserted and nothing is normalised. */
  function BuildURL(c: Config, endpoint: string): (url: string)
    ensures |url| == |c.baseURL| + |endpoint|
    ensures url[..|c.baseURL|] == c.baseURL
    ensures url[|c.baseURL|..] == endpoint
  {
    c.baseURL + endpoint
  }

  /** For one client, distinct endpoints give distinct URLs. */
  lemma {:induction false} BuildURLInjective(c: Config, e1: string, e2: string)
    requires BuildURL(c, e1) == BuildURL(c, e2)
    ensures e1 == e2
  {
    assert e1 == BuildURL(c, e1)[|c.baseURL|..];
  }

  /** The contrapositive, in the form callers use it. */
  lemma {:induction false} BuildURLDistinct(c: Config, e1: string, e2: string)
    requires e1 != e2
    ensures BuildURL(c, e1) != BuildURL(c, e2)
  {
    assert BuildURL(c, e1)[|c.baseURL|..] != BuildURL(c, e2)[|c.baseURL|..];
  }

  /** Request headers: each key maps to its list of values. */
  type Header = map<string, seq<string>>

  /** `Header.Set`: the key gets exactly one value, replacing any earlier
      ones; every other key is left as it was. */
  function SetHeader(h: Header, key: string, value: string): (h': Header)
    ensures h'.Keys == h.Keys + {key}
    ensures h'[key] == [value]
    ensures forall k :: k in h && k != key ==> h'[k] == h[k]
  {
    h[key := [value]]
  }

  const Authorization: string := "Authorization"
  const ContentType: string := "Content-Type"
  const BearerPrefix: string := "Bearer "
  const JsonMediaType: string := "application/json"

  /** The authorisation and content-type headers added to every request. */
  function AddHeaders(c: Config, h: Header): (h': Header)
    ensures h'.Keys == h.Keys + {Authorization, ContentType}
    ensures h'[Authorization] == ["Bearer " + c.apiKey]
    ensures h'[ContentType] == ["application/json"]
    ensures forall k :: k in h && k != Authorization && k != ContentType ==> h'[k] == h[k]
  {
    SetHeader(SetHeader(h, Authorization, BearerPrefix + c.apiKey), ContentType, JsonMediaType)
  }

  /** Adding the headers a second time changes nothing. */
  lemma {:induction false} AddHeadersIdempotent(c: Config, h: Header)
    ensures AddHeaders(c, AddHeaders(c, h)) == AddHeaders(c, h)
  {
    var once := AddHeaders(c, h);
    var twice := AddHeaders(c, once);
    assert twice.Keys == once.Keys;
    forall k | k in twice
      ensures twice[k] == once[k]
    {
    }
  }

  /** A request as it is handed to the HTTP client. */
  datatype Request = Request(verb: string, url: string, header: Header, body: Option<string>)

  /** A request built for an endpoint, with the client's headers added. */
  function NewRequest(c: Config, verb: string, endpoint: string, body: Option<string>): (r: Request)
    ensures r.verb == verb && r.body == body
    ensures r.url == BuildURL(c, endpoint)
    ensures r.header.Keys == {Authorization, ContentType}
    ensures r.header[Authorization] == ["Bearer " + c.apiKey]
    ensures r.header[ContentType] == ["application/json"]
  {
    Request(verb, BuildURL(c, endpoint), AddHeaders(c, map[]), body)
  }
}

=== FILE: completion.dfy ===
/** Sending a completion message: the same dispatcher, decoder and
    classifier as a workflow run, against another endpoint. */
module Completion {
  import opened Wrappers
  import opened Models
  import opened Client
  import opened Responses
  import opened Dispatch
  import Workflow

  const CompletionEndpoint: string := "/completion-messages"

  function SendCompletionMessage<X, T>(c: Config, req: ModalRequest<X>, codec: Codec<X, T>,
                                       net: Transport, cancel: Option<nat>): (r: Reply<T>)
    ensures r.issued.Some? ==> r.issued.value.url == c.baseURL + "/completion-messages"
    ensures Present(r) == 1
  {
    Exchange(c, CompletionEndpoint, req, codec, net, cancel)
  }

  /** A completion message and a workflow run given the same request,
      codec and network behave identically but for the URL they target:
      one generic dispatcher serves both. */
  lemma {:induction false} SameAsWorkflowRun<X, T>(c: Config, req: ModalRequest<X>, codec: Codec<X, T>,
                                net: Transport, cancel: Option<nat>)
    ensures var a := SendCompletionMessage(c, req, codec, net, cancel);
            var b := Workflow.RunWorkflow(c, req, codec, net, cancel);
            && a.value == b.value && a.stream == b.stream && a.err == b.err
            && (a.issued.Some? <==> b.issued.Some?)
            && (a.issued.Some? ==> a.issued.value.url != b.issued.value.url
                                   && a.issued.value.(url := "") == b.issued.value.(url := ""))
  {
    var a := SendCompletionMessage(c, req, codec, net, cancel);
    var b := Workflow.RunWorkflow(c, req, codec, net, cancel);
    assert CompletionEndpoint[1] != Workflow.RunEndpoint[1];
    BuildURLDistinct(c, CompletionEndpoint, Workflow.RunEndpoint);
  }
}

=== FILE: decimal.dfy ===
/** Base-10 rendering of integers, as Go's `%d` verb prints an `int`, and the
    parser that reads such a numeral back. */
module Decimal {

  predicate IsDigit(ch: char) {
    '0' <= ch <= '9'
  }

  function DigitChar(d: nat): (ch: char)
    requires d < 10
    ensures IsDigit(ch)
    ensures ch as int - '0' as int == d
  {
    ('0' as int + d) as char
  }

  function DigitValue(ch: char): (d: nat)
    requires IsDigit(ch)
    ensures d < 10 && DigitChar(d) == ch
  {
    ch as int - '0' as int
  }

  /** The decimal numeral of `n`: one digit or more, and no leading zero
      unless `n` is zero itself. */
  function NatText(n: nat): (s: string)
    ensures |s| >= 1
    ensures forall i :: 0 <= i < |s| ==> IsDigit(s[i])
    ensures s[0] == '0' ==> n == 0 && s == "0"
    decreases n
  {
    if n < 10 then [DigitChar(n)] else NatText(n / 10) + [DigitChar(n % 10)]
  }

  /** `%d` of an integer: a leading '-' exactly for negative values. */
  function IntText(n: int): (s: string)
    ensures |s| >= 1
    ensures n < 0 <==> s[0] == '-'
    ensures n >= 0 ==> IsDigit(s[0])
    ensures forall i :: 0 < i < |s| ==> IsDigit(s[i])
  {
    if n < 0 then "-" + NatText(-n) else NatText(n)
  }

  /** A string shaped like an optional '-' followed by digits. */
  predicate IsNumeral(s: string) {
    && |s| >= 1
    && (s[0] == '-' || IsDigit(s[0]))
    && forall i :: 0 < i < |s| ==> IsDigit(s[i])
  }

  function ParseNat(s: string): nat
    requires forall i :: 0 <= i < |s| ==> IsDigit(s[i])
    decreases |s|
  {
    if |s| == 0 then 0 else 10 * ParseNat(s[..|s| - 1]) + DigitValue(s[|s| - 1])
  }

  function ParseInt(s: string): int
    requires IsNumeral(s)
  {
    if s[0] == '-' then 0 - ParseNat(s[1..]) as int else ParseNat(s)
  }

  /** Reading a natural numeral back gives the number that was printed. */
  lemma {:induction false} ParseNatText(n: nat)
    ensures ParseNat(NatText(n)) == n
    decreases n
  {
    var s := NatText(n);
    if n < 10 {
      assert s[..|s| - 1] == [];
    } else {
      assert s[..|s| - 1] == NatText(n / 10);
      ParseNatText(n / 10);
    }
  }

  /** `%d` is injective and invertible: parsing it yields the integer. */
  lemma {:induction false} ParseIntText(n: int)
    ensures IsNumeral(IntText(n))
    ensures ParseInt(IntText(n)) == n
  {
    if n < 0 {
      assert IntText(n)[1..] == NatText(-n);
      ParseNatText(-n);
    } else {
      ParseNatText(n);
    }
  }
}

=== FILE: dispatch.dfy ===
/** The mode dispatcher shared by the two operations that can stream: it
    builds the request, then either starts the streaming task or performs a
    blocking exchange, or rejects the mode. */
module Dispatch {
  import opened Wrappers
  import opened Models
  import opened Client
  import opened Responses
  import opened EventStream

  datatype Mode = Streaming | Blocking

  function ModeName(m: Mode): string {
    match m
    case Streaming => "streaming"
    case Blocking => "blocking"
  }

  /** Exact, case-sensitive match on the two mode names; anything else is
      the "invalid response_mode" error. */
  function ParseMode(s: string): (r: Result<Mode, Failure>)
    ensures r.Ok? ==> ModeName(r.value) == s
    ensures r.Err? ==> r.error == InvalidMode(s) && s != "streaming" && s != "blocking"
  {
    if s == "streaming" then Ok(Streaming)
    else if s == "blocking" then Ok(Blocking)
    else Err(InvalidMode(s))
  }

  /** Each mode's name is accepted as that mode. */
  lemma {:induction false} ModeRoundTrip(m: Mode)
    ensures ParseMode(ModeName(m)) == Ok(m)
  {
  }

  /** The JSON codec of one operation, left uninterpreted: encoding the
      request, decoding one stream payload, decoding an APIError body and
      decoding the blocking reply. */
  datatype Codec<!X, T> = Codec(
    encode: ModalRequest<X> -> Result<string, string>,
    chunk: ChunkDecoder,
    apiError: ErrorDecoder,
    reply: Body -> Result<T, string>)

  /** What a dispatching call returns: the blocking result, the stream's
      channel (given as the history the consumer observes) and the error,
      as Go's three return values; `issued` is the request handed to the
      HTTP client, if any is. */
  datatype Reply<T> = Reply(value: Option<T>, stream: Option<seq<Signal>>, err: Option<Failure>,
                            issued: Option<Request>)

  /** What a call without a stream returns, as Go's two return values
      folded into one result; `issued` as for `Reply`. */
  datatype Answer<T> = Answer(outcome: Result<T, Failure>, issued: Option<Request>)

  /** How many of the three return values are non-nil. */
  function Present<T>(r: Reply<T>): nat {
    (if r.value.Some? then 1 else 0) + (if r.stream.Some? then 1 else 0) + (if r.err.Some? then 1 else 0)
  }

  /** One dispatching call against `endpoint`. `net` is what the HTTP
      client would return for the request, and `cancel` when, if ever, the
      caller's context wins a send. */
  function Exchange<X, T>(c: Config, endpoint: string, req: ModalRequest<X>, codec: Codec<X, T>,
                          net: Transport, cancel: Option<nat>): (r: Reply<T>)
    ensures Present(r) == 1
    ensures r.issued.Some? ==> r.issued.value.verb == "POST" && r.issued.value.url == c.baseURL + endpoint
    ensures r.stream.Some? ==> ClosedOnce(r.stream.value)
    ensures codec.encode(req).Ok? && ParseMode(req.responseMode).Ok? ==>
              r.issued == Some(NewRequest(c, "POST", endpoint, Some(codec.encode(req).value)))
  {
    match codec.encode(req)
    case Err(m) => Reply(None, None, Some(MarshalError(m)), None)
    case Ok(bytes) =>
      var request := NewRequest(c, "POST", endpoint, Some(bytes));
      match ParseMode(req.responseMode)
      case Err(f) => Reply(None, None, Some(f), None)
      case Ok(Streaming) => Reply(None, Some(StreamTrace(net, codec.chunk, codec.apiError, cancel)), None, Some(request))
      case Ok(Blocking) =>
        match Complete(net, codec.apiError, codec.reply)
        case Ok(v) => Reply(Some(v), None, None, Some(request))
        case Err(f) => Reply(None, None, Some(f), Some(request))
  }

  /** A mode other than the two exact names is rejected with
      "invalid response_mode: <mode>", and no request reaches the HTTP
      client: the reply does not depend on what the network would do. */
  lemma {:induction false} InvalidModeNoCall<X, T>(c: Config, endpoint: string, req: ModalRequest<X>, codec: Codec<X, T>,
                                net1: Transport, net2: Transport, cancel1: Option<nat>, cancel2: Option<nat>)
    requires codec.encode(req).Ok?
    requires req.responseMode != "streaming" && req.responseMode != "blocking"
    ensures var r := Exchange(c, endpoint, req, codec, net1, cancel1);
            && r == Exchange(c, endpoint, req, codec, net2, cancel2)
            && r.issued.None? && r.value.None? && r.stream.None?
            && r.err == Some(InvalidMode(req.responseMode))
            && FailureText(r.err.value) == "invalid response_mode: " + req.responseMode
  {
  }

  /** Streaming returns at once with only the channel: no value and no
      error, whatever the network does; everything the network does shows
      up on the channel. */
  lemma {:induction false} StreamingReturnsChannel<X, T>(c: Config, endpoint: string, req: ModalRequest<X>, codec: Codec<X, T>,
                                      net: Transport, cancel: Option<nat>)
    requires codec.encode(req).Ok?
    requires req.responseMode == "streaming"
    ensures var r := Exchange(c, endpoint, req, codec, net, cancel);
            && r.value.None? && r.err.None?
            && r.stream == Some(StreamTrace(net, codec.chunk, codec.apiError, cancel))
            && r.issued == Some(NewRequest(c, "POST", endpoint, Some(codec.encode(req).value)))
  {
  }

  /** Blocking mode never returns a channel; a transport failure is
      returned as the error. */
  lemma {:induction false} BlockingTransportFailure<X, T>(c: Config, endpoint: string, req: ModalRequest<X>, codec: Codec<X, T>,
                                       reason: string, cancel: Option<nat>)
    requires codec.encode(req).Ok?
    requires req.responseMode == "blocking"
    ensures var r := Exchange(c, endpoint, req, codec, Failed(reason), cancel);
            && r.value.None? && r.stream.None? && r.err == Some(TransportError(reason))
            && r.issued == Some(NewRequest(c, "POST", endpoint, Some(codec.encode(req).value)))
  {
  }

  /** Blocking mode with a non-200 status returns the decoded APIError
      unmodified, or the "status code: N" error when the body is not one. */
  lemma {:induction false} BlockingNonSuccess<X, T>(c: Config, endpoint: string, req: ModalRequest<X>, codec: Codec<X, T>,
                                 status: int, body: Body, cancel: Option<nat>)
    requires codec.encode(req).Ok?
    requires req.responseMode == "blocking"
    requires status != 200
    ensures var r := Exchange(c, endpoint, req, codec, Responded(status, body), cancel);
            && r.value.None? && r.stream.None?
            && (codec.apiError(body).Some? ==> r.err == Some(Api(codec.apiError(body).value)))
            && (codec.apiError(body).None? ==> r.err == Some(StatusOnly(status)))
            && r.issued == Some(NewRequest(c, "POST", endpoint, Some(codec.encode(req).value)))
  {
  }

  /** Blocking mode with status 200 returns exactly one of the decoded reply
      and the decoder's error. */
  lemma {:induction false} BlockingSuccess<X, T>(c: Config, endpoint: string, req: ModalRequest<X>, codec: Codec<X, T>,
                              body: Body, cancel: Option<nat>)
    requires codec.encode(req).Ok?
    requires req.responseMode == "blocking"
    ensures var r := Exchange(c, endpoint, req, codec, Responded(200, body), cancel);
            && r.stream.None?
            && (r.value.Some? <==> r.err.None?)
            && (codec.reply(body).Ok? ==> r.value == Some(codec.reply(body).value))
            && (codec.reply(body).Err? ==> r.err == Some(DecodeError(codec.reply(body).error)))
            && r.issued == Some(NewRequest(c, "POST", endpoint, Some(codec.encode(req).value)))
  {
  }

  /** The request is encoded before the mode is looked at: an encoding
      failure is returned whatever the mode, and nothing is sent. */
  lemma {:induction false} MarshalFailureFirst<X, T>(c: Config, endpoint: string, req: ModalRequest<X>, codec: Codec<X, T>,
                                  net: Transport, cancel: Option<nat>)
    requires codec.encode(req).Err?
    ensures var r := Exchange(c, endpoint, req, codec, net, cancel);
            r.err == Some(MarshalError(codec.encode(req).error)) && r.issued.None?
  {
  }
}

=== FILE: errors.dfy ===
/** The error value the service reports in the body of a non-200 response,
    and its `Error()` text. */
module Errors {
  import opened Wrappers
  import opened Decimal

  /** A server-reported failure: status, machine code and human message. */
  datatype APIError = APIError(statusCode: int, code: string, message: string)

  const Prefix: string := "APIError: "
  const Separator: string := " - "
  const StatusOpen: string := " (status code: "
  const StatusClose: string := ")"

  /** The text of `APIError.Error()`: code, message and the status in base 10. */
  function ErrorText(e: APIError): (s: string)
    ensures |s| == |Prefix| + |Separator| + |StatusOpen| + |StatusClose|
                   + |e.code| + |e.message| + |IntText(e.statusCode)|
    ensures s[..|Prefix|] == Prefix
    ensures var c := |Prefix| + |e.code|;
            var m := c + |Separator|;
            && s[|Prefix|..c] == e.code
            && s[c..m] == Separator
            && s[m..m + |e.message|] == e.message
            && s[m + |e.message|..|s| - 1] == StatusOpen + IntText(e.statusCode)
    ensures s[|s| - 1] == ')'
  {
    Prefix + e.code + Separator + e.message + StatusOpen + IntText(e.statusCode) + StatusClose
  }

  predicate IsNumeralChar(ch: char) {
    ch == '-' || IsDigit(ch)
  }

  /** The longest suffix of `s` made only of digits and '-'. */
  function TrailingNumeral(s: string): (t: string)
    ensures |t| <= |s| && t == s[|s| - |t|..]
    ensures forall i :: 0 <= i < |t| ==> IsNumeralChar(t[i])
    decreases |s|
  {
    if |s| > 0 && IsNumeralChar(s[|s| - 1]) then TrailingNumeral(s[..|s| - 1]) + [s[|s| - 1]] else []
  }

  /** Reads the status code back out of an `Error()` text, from its end. */
  function StatusOfText(s: string): Option<int> {
    if |s| == 0 || s[|s| - 1] != ')' then None
    else
      var t := TrailingNumeral(s[..|s| - 1]);
      if IsNumeral(t) then Some(ParseInt(t)) else None
  }

  lemma {:induction false} TrailingNumeralAfter(p: string, d: string)
    requires |p| > 0 && !IsNumeralChar(p[|p| - 1])
    requires forall i :: 0 <= i < |d| ==> IsNumeralChar(d[i])
    ensures TrailingNumeral(p + d) == d
    decreases |d|
  {
    if |d| == 0 {
      assert p + d == p;
    } else {
      var d' := d[..|d| - 1];
      assert (p + d)[..|p + d| - 1] == p + d';
      TrailingNumeralAfter(p, d');
      assert d' + [d[|d| - 1]] == d;
    }
  }

  /** Whatever the code and message hold, the status code printed at the end
      of `Error()` can be recovered from the text. */
  lemma {:induction false} StatusRecoverable(e: APIError)
    ensures StatusOfText(ErrorText(e)) == Some(e.statusCode)
  {
    var s := ErrorText(e);
    var p := Prefix + e.code + Separator + e.message + StatusOpen;
    var d := IntText(e.statusCode);
    assert s == (p + d) + StatusClose;
    assert s[..|s| - 1] == p + d;
    assert p[|p| - 1] == ' ';
    TrailingNumeralAfter(p, d);
    ParseIntText(e.statusCode);
  }
}

=== FILE: eventstream.dfy ===
/** The background task of a streaming call: it turns the transport's
    outcome into the sequence of chunks sent on the channel, followed by the
    channel's close. Both streaming operations run this same decoder. */
module EventStream {
  import opened Wrappers
  import opened Models
  import opened Errors
  import opened Decimal
  import opened Responses
  import opened LineReader

  /** The JSON decoder for one event payload: a chunk or the decoder's error text. */
  type ChunkDecoder = string -> Result<Chunk, string>

  /** The JSON decoder for an APIError in a non-200 body. */
  type ErrorDecoder = Body -> Option<APIError>

  const DataPrefix: string := "data: "

  /** The text handed to the JSON decoder for a line: everything after the
      exact six characters "data: ", the trailing '\n' included. A line that
      does not start with them, a shorter one included, has none. */
  function Payload(line: string): (p: Option<string>)
    ensures p.Some? ==> line == DataPrefix + p.value
  {
    if |line| < |DataPrefix| || line[..|DataPrefix|] != DataPrefix then None
    else Some(line[|DataPrefix|..])
  }

  /** The converse: a line that starts with "data: " hands the decoder
      exactly the rest of the line. */
  lemma {:induction false} PayloadOfDataLine(p: string)
    ensures Payload(DataPrefix + p) == Some(p)
  {
    assert (DataPrefix + p)[..|DataPrefix|] == DataPrefix;
  }

  /** What the task tries to put on the channel. A `Data` chunk came from
      the wire and is offered in a `select` that also watches for
      cancellation; a `Notice` is an error chunk made by the client and is
      sent unconditionally. */
  datatype Emission = Data(chunk: Chunk) | Notice(chunk: Chunk)

  /** The error chunk reporting a failure with no structured code. */
  function Reported(reason: string): Emission {
    Notice(ErrorChunk("", reason))
  }

  /** What one line contributes: nothing if it has no payload; otherwise the
      decoded chunk, or one error chunk carrying the decoder's message. */
  function LineEmission(line: string, decode: ChunkDecoder): (es: seq<Emission>)
    ensures |es| <= 1
    ensures |es| == 1 <==> |line| >= |DataPrefix| && line[..|DataPrefix|] == DataPrefix
    ensures |es| == 1 && es[0].Data? ==> decode(line[|DataPrefix|..]) == Ok(es[0].chunk)
    ensures |es| == 1 && es[0].Notice? ==>
              decode(line[|DataPrefix|..]).Err? && es[0].chunk == ErrorChunk("", decode(line[|DataPrefix|..]).error)
  {
    match Payload(line)
    case None => []
    case Some(p) =>
      match decode(p)
      case Ok(c) => [Data(c)]
      case Err(m) => [Reported(m)]
  }

  /** The lines' contributions, in line order. */
  function LineEmissions(ls: seq<string>, decode: ChunkDecoder): (es: seq<Emission>)
    ensures |es| <= |ls|
    ensures (forall i :: 0 <= i < |ls| ==> Payload(ls[i]).None?) ==> es == []
    decreases |ls|
  {
    if |ls| == 0 then [] else LineEmission(ls[0], decode) + LineEmissions(ls[1..], decode)
  }

  /** A read error adds one error chunk with its message; a clean end of
      stream adds nothing. */
  function EndEmissions(end: BodyEnd): (es: seq<Emission>)
    ensures end.CleanEOF? ==> es == []
    ensures end.ReadError? ==> |es| == 1 && es[0].Notice? && es[0].chunk.event == "error"
                               && es[0].chunk.code == "" && es[0].chunk.message == end.reason
  {
    match end
    case CleanEOF => []
    case ReadError(m) => [Reported(m)]
  }

  /** A 200 body: its complete lines, then how reading ended. */
  function BodyEmissions(body: Body, decode: ChunkDecoder): (es: seq<Emission>)
    ensures |es| <= |Lines(body.text)| + (if body.end.ReadError? then 1 else 0)
    ensures body.end.ReadError? ==> |es| > 0 && es[|es| - 1] == Reported(body.end.reason)
  {
    LineEmissions(Lines(body.text), decode) + EndEmissions(body.end)
  }

  /** The error chunk for a non-200 response: the APIError's code and
      message when the body decodes as one, otherwise "status code: N". */
  function StatusChunk(status: int, body: Body, apiError: ErrorDecoder): (ch: Chunk)
    ensures ch.event == "error"
    ensures apiError(body).Some? ==>
              ch.code == apiError(body).value.code && ch.message == apiError(body).value.message
    ensures apiError(body).None? ==>
              && ch.code == "" && |ch.message| > |StatusPrefix| && ch.message[..|StatusPrefix|] == StatusPrefix
              && IsNumeral(ch.message[|StatusPrefix|..]) && ParseInt(ch.message[|StatusPrefix|..]) == status
  {
    match apiError(body)
    case Some(a) => ErrorChunk(a.code, a.message)
    case None => ErrorChunk("", StatusText(status))
  }

  /** Everything the task would send if it were never cancelled. */
  function Emissions(net: Transport, decode: ChunkDecoder, apiError: ErrorDecoder): (es: seq<Emission>)
    ensures !(net.Responded? && net.status == 200) ==>
              |es| == 1 && es[0].Notice? && es[0].chunk.event == "error"
    ensures forall i :: 0 <= i < |es| && es[i].Data? ==> net.Responded? && net.status == 200
  {
    match net
    case Failed(m) => [Reported(m)]
    case Responded(status, body) =>
      if status != 200 then [Notice(StatusChunk(status, body, apiError))]
      else BodyEmissions(body, decode)
  }

  function Chunks(es: seq<Emission>): (cs: seq<Chunk>)
    ensures |cs| == |es| && forall i :: 0 <= i < |es| ==> cs[i] == es[i].chunk
  {
    seq(|es|, i requires 0 <= i < |es| => es[i].chunk)
  }

  function DataCount(es: seq<Emission>): nat
    decreases |es|
  {
    if |es| == 0 then 0 else (if es[0].Data? then 1 else 0) + DataCount(es[1..])
  }

  function Countdown(cancel: Option<nat>): Option<nat>
    requires cancel != Some(0)
  {
    match cancel
    case None => None
    case Some(k) => Some(k - 1)
  }

  /** The chunks actually delivered. `cancel == Some(k)` means the `select`
      guarding the `k`-th wire chunk (counting from 0) takes the
      cancellation branch, after which the task stops; `None` means it
      never does. Error chunks are not guarded. */
  function Deliver(es: seq<Emission>, cancel: Option<nat>): (cs: seq<Chunk>)
    ensures |cs| <= |es|
    decreases |es|
  {
    if |es| == 0 then []
    else
      match es[0]
      case Notice(c) => [c] + Deliver(es[1..], cancel)
      case Data(c) => if cancel == Some(0) then [] else [c] + Deliver(es[1..], Countdown(cancel))
  }

  lemma {:induction false} DeliverCons(e: Emission, rest: seq<Emission>, cancel: Option<nat>)
    ensures Deliver([e] + rest, cancel) ==
              if e.Data? && cancel == Some(0) then []
              else [e.chunk] + Deliver(rest, if e.Data? then Countdown(cancel) else cancel)
  {
    assert ([e] + rest)[0] == e;
    assert ([e] + rest)[1..] == rest;
  }

  /** What the channel carries: a chunk per send, then its close. */
  datatype Signal = Send(chunk: Chunk) | Close

  /** Closed exactly once, as the last thing that happens to the channel. */
  predicate ClosedOnce(t: seq<Signal>) {
    && |t| > 0
    && t[|t| - 1].Close?
    && forall i :: 0 <= i < |t| - 1 ==> t[i].Send?
  }

  /** The channel's history when the task sends `cs` and then its deferred
      close runs. */
  function Frame(cs: seq<Chunk>): (t: seq<Signal>)
    ensures |t| == |cs| + 1 && t[|cs|] == Close
    ensures forall i :: 0 <= i < |cs| ==> t[i] == Send(cs[i])
  {
    seq(|cs|, i requires 0 <= i < |cs| => Send(cs[i])) + [Close]
  }

  /** The observable behaviour of one streaming call's background task. */
  function StreamTrace(net: Transport, decode: ChunkDecoder, apiError: ErrorDecoder,
                       cancel: Option<nat>): (t: seq<Signal>)
    ensures ClosedOnce(t)
  {
    Frame(Deliver(Emissions(net, decode, apiError), cancel))
  }

  lemma {:induction false} LineEmissionsCons(l: string, ls: seq<string>, decode: ChunkDecoder)
    ensures LineEmissions([l] + ls, decode) == LineEmission(l, decode) + LineEmissions(ls, decode)
  {
    assert ([l] + ls)[0] == l;
    assert ([l] + ls)[1..] == ls;
  }

  /** What is still to come once the reader has reached `rest`. */
  function Remaining(rest: string, end: BodyEnd, decode: ChunkDecoder): seq<Emission> {
    LineEmissions(Lines(rest), decode) + EndEmissions(end)
  }

  /** Regrouping a concatenation. Dafny knows this fact; stating it through
      a lemma keeps it out of the larger proof contexts below. */
  lemma {:induction false} Associative<T>(a: seq<T>, b: seq<T>, c: seq<T>)
    ensures (a + b) + c == a + (b + c)
  {
  }

  lemma {:induction false} LinesStep(rest: string, i: nat, decode: ChunkDecoder, end: BodyEnd)
    requires NewlineIndex(rest) == Some(i)
    ensures i < |rest|
    ensures Remaining(rest, end, decode) == LineEmission(rest[..i + 1], decode) + Remaining(rest[i + 1..], end, decode)
  {
    LinesUnfold(rest, i);
    var l := rest[..i + 1];
    var ls := Lines(rest[i + 1..]);
    LineEmissionsCons(l, ls, decode);
    var e := LineEmission(l, decode);
    var tail := LineEmissions(ls, decode);
    var fin := EndEmissions(end);
    Associative(e, tail, fin);
  }

  lemma {:induction false} LinesDone(rest: string, decode: ChunkDecoder, end: BodyEnd, pending: Option<nat>)
    requires NewlineIndex(rest).None?
    ensures Deliver(Remaining(rest, end, decode), pending) ==
              if end.ReadError? then [ErrorChunk("", end.reason)] else []
  {
    assert Lines(rest) == [];
    assert Remaining(rest, end, decode) == EndEmissions(end);
    if end.ReadError? {
      DeliverCons(Reported(end.reason), [], pending);
      assert [Reported(end.reason)] + [] == [Reported(end.reason)];
    }
  }

  /** One line read by the loop: nothing for a line without the data
      prefix, one error chunk for a payload that does not decode, and for a
      decoded chunk a `select` that either sends it or, when cancellation
      wins, stops the loop. */
  method HandleLine(line: string, decode: ChunkDecoder, pending: Option<nat>, ghost later: seq<Emission>)
    returns (out: seq<Chunk>, next: Option<nat>, stop: bool)
    ensures stop ==> Deliver(LineEmission(line, decode) + later, pending) == out
    ensures !stop ==> Deliver(LineEmission(line, decode) + later, pending) == out + Deliver(later, next)
  {
    out, next, stop := [], pending, false;
    match Payload(line) {
      case None =>
        assert LineEmission(line, decode) + later == later;
      case Some(p) =>
        match decode(p) {
          case Err(m) =>
            assert LineEmission(line, decode) == [Reported(m)];
            DeliverCons(Reported(m), later, pending);
            out := [ErrorChunk("", m)];
          case Ok(c) =>
            assert LineEmission(line, decode) == [Data(c)];
            DeliverCons(Data(c), later, pending);
            if pending == Some(0) {
              stop := true;
            } else {
              out, next := [c], Countdown(pending);
            }
        }
    }
  }

  /** The read loop of the task as the source writes it: read a line at a
      time until the reader fails, handle each line, and report a read
      error other than end of stream as one error chunk. */
  method ReadLoop(body: Body, decode: ChunkDecoder, cancel: Option<nat>) returns (sent: seq<Chunk>)
    ensures sent == Deliver(BodyEmissions(body, decode), cancel)
  {
    var rest := body.text;
    sent := [];
    var pending := cancel;
    var stop := false;
    while !stop && NewlineIndex(rest).Some?
      invariant !stop ==> Deliver(BodyEmissions(body, decode), cancel) ==
                            sent + Deliver(Remaining(rest, body.end, decode), pending)
      invariant stop ==> Deliver(BodyEmissions(body, decode), cancel) == sent
      decreases |rest|
    {
      var i := NewlineIndex(rest).value;
      LinesStep(rest, i, decode, body.end);
      var line := rest[..i + 1];
      rest := rest[i + 1..];
      var out, next;
      out, next, stop := HandleLine(line, decode, pending, Remaining(rest, body.end, decode));
      Associative(sent, out, Deliver(Remaining(rest, body.end, decode), next));
      sent := sent + out;
      pending := next;
    }
    if !stop {
      // the reader hands back the unterminated remainder with an error
      LinesDone(rest, decode, body.end, pending);
      if body.end.ReadError? {
        sent := sent + [ErrorChunk("", body.end.reason)];
      } else {
        assert sent + [] == sent;
      }
    }
  }

  /** The whole task: report a transport failure or a non-200 status as
      its only chunk, otherwise run the read loop; the deferred close runs
      on every way out. */
  method Pump(net: Transport, decode: ChunkDecoder, apiError: ErrorDecoder, cancel: Option<nat>)
    returns (trace: seq<Signal>)
    ensures trace == StreamTrace(net, decode, apiError, cancel)
  {
    if net.Failed? {
      DeliverCons(Reported(net.reason), [], cancel);
      trace := Frame([ErrorChunk("", net.reason)]);
    } else if net.status != 200 {
      DeliverCons(Notice(StatusChunk(net.status, net.body, apiError)), [], cancel);
      trace := Frame([StatusChunk(net.status, net.body, apiError)]);
    } else {
      var sent := ReadLoop(net.body, decode, cancel);
      trace := Frame(sent);
    }
  }
}

=== FILE: lines.dfy ===
/** Splitting a body into the lines `bufio.Reader.ReadString('\n')` returns. */
module LineReader {
  import opened Wrappers

  /** No '\n' anywhere in `s`. */
  predicate NoNewline(s: string) {
    forall j :: 0 <= j < |s| ==> s[j] != '\n'
  }

  /** Position of the first '\n' in `s`, if there is one. */
  function NewlineIndex(s: string): (r: Option<nat>)
    ensures r.Some? ==> r.value < |s| && s[r.value] == '\n' && NoNewline(s[..r.value])
    ensures r.None? ==> NoNewline(s)
    decreases |s|
  {
    if |s| == 0 then None
    else if s[0] == '\n' then Some(0)
    else
      match NewlineIndex(s[1..])
      case None => None
      case Some(i) => Some(i + 1)
  }

  /** A complete line: it ends with its only '\n'. */
  predicate IsLine(l: string) {
    |l| > 0 && l[|l| - 1] == '\n' && NoNewline(l[..|l| - 1])
  }

  /** The complete lines of `s`, each with its '\n', in order. A trailing
      fragment without '\n' is not a line. */
  function Lines(s: string): (ls: seq<string>)
    ensures forall i :: 0 <= i < |ls| ==> IsLine(ls[i])
    decreases |s|
  {
    match NewlineIndex(s)
    case None => []
    case Some(i) => [s[..i + 1]] + Lines(s[i + 1..])
  }

  /** One step of the split: the first line, then the lines of the rest;
      the fragment is the rest's fragment. */
  lemma {:induction false} LinesUnfold(s: string, i: nat)
    requires NewlineIndex(s) == Some(i)
    ensures i < |s| && s == s[..i + 1] + s[i + 1..]
    ensures Lines(s) == [s[..i + 1]] + Lines(s[i + 1..])
    ensures Fragment(s) == Fragment(s[i + 1..])
  {
  }

  /** What follows the last '\n' of `s`: the part no line contains. */
  function Fragment(s: string): (f: string)
    ensures NoNewline(f)
    decreases |s|
  {
    match NewlineIndex(s)
    case None => s
    case Some(i) => Fragment(s[i + 1..])
  }

  function Join(ls: seq<string>): string
    decreases |ls|
  {
    if |ls| == 0 then "" else ls[0] + Join(ls[1..])
  }

  /** The lines and the fragment together are the whole text: nothing is
      lost or reordered by the split. */
  lemma {:induction false} LinesCover(s: string)
    ensures Join(Lines(s)) + Fragment(s) == s
    decreases |s|
  {
    match NewlineIndex(s)
    case None =>
    case Some(i) =>
      LinesCover(s[i + 1..]);
      LinesUnfold(s, i);
      JoinPrepend(s[..i + 1], s[i + 1..], Lines(s[i + 1..]), Fragment(s[i + 1..]));
  }

  lemma {:induction false} JoinPrepend(head: string, tail: string, ls: seq<string>, f: string)
    requires Join(ls) + f == tail
    ensures Join([head] + ls) + f == head + tail
  {
    JoinCons(head, ls);
    assert (head + Join(ls)) + f == head + (Join(ls) + f);
  }

  lemma {:induction false} JoinCons(l: string, ls: seq<string>)
    ensures Join([l] + ls) == l + Join(ls)
  {
    assert ([l] + ls)[1..] == ls;
  }

  /** A '\n' at `k` with none before it is the first one. */
  lemma {:induction false} FirstNewline(s: string, k: nat)
    requires k < |s| && s[k] == '\n' && NoNewline(s[..k])
    ensures NewlineIndex(s) == Some(k)
  {
  }

  /** Splitting complete lines followed by a fragment gives back exactly
      those lines and that fragment. */
  lemma {:induction false} LinesOfJoin(ls: seq<string>, f: string)
    requires forall i :: 0 <= i < |ls| ==> IsLine(ls[i])
    requires NoNewline(f)
    ensures Lines(Join(ls) + f) == ls
    ensures Fragment(Join(ls) + f) == f
    decreases |ls|
  {
    var s := Join(ls) + f;
    if |ls| == 0 {
      assert s == f;
    } else {
      var l := ls[0];
      var rest := Join(ls[1..]) + f;
      assert s == l + rest;
      var k := |l| - 1;
      assert s[..k] == l[..k];
      FirstNewline(s, k);
      assert s[k + 1..] == rest;
      assert s[..k + 1] == l;
      LinesOfJoin(ls[1..], f);
      assert ls == [l] + ls[1..];
    }
  }

  /** A trailing fragment without '\n' never becomes a line. */
  lemma {:induction false} FragmentDropped(ls: seq<string>, f: string)
    requires forall i :: 0 <= i < |ls| ==> IsLine(ls[i])
    requires NoNewline(f)
    ensures Lines(Join(ls) + f) == Lines(Join(ls))
  {
    LinesOfJoin(ls, f);
    LinesOfJoin(ls, "");
    assert Join(ls) + "" == Join(ls);
  }
}

=== FILE: models.dfy ===
/** The request and chunk shapes the core touches. */
module Models {

  /** A request that selects a response mode. `extra` stands for the
      request's remaining fields (inputs, files), opaque to the core. */
  datatype ModalRequest<X> = ModalRequest(responseMode: string, user: string, extra: X)

  /** One decoded unit of a streaming response. The nested `metadata`
      record is not carried. */
  datatype Chunk = Chunk(
    event: string,
    taskId: string,
    messageId: string,
    conversationId: string,
    answer: string,
    createdAt: int,
    status: int,
    code: string,
    message: string,
    audio: string)

  const ErrorEvent: string := "error"

  /** A chunk manufactured by the client itself to report a failure: event
      "error", the given code and message, every other field at its zero value. */
  function ErrorChunk(code: string, message: string): (ch: Chunk)
    ensures ch.event == "error" && ch.code == code && ch.message == message
    ensures ch.taskId == "" && ch.messageId == "" && ch.conversationId == ""
    ensures ch.answer == "" && ch.audio == "" && ch.createdAt == 0 && ch.status == 0
  {
    Chunk(ErrorEvent, "", "", "", "", 0, 0, code, message, "")
  }
}

=== FILE: responses.dfy ===
/** What the HTTP client hands back, the errors a call can surface, and the
    response classifier shared by every blocking call. */
module Responses {
  import opened Wrappers
  import opened Decimal
  import opened Errors

  /** How reading a response body ends: a clean end of stream, or a read
      failure with its message. */
  datatype BodyEnd = CleanEOF | ReadError(reason: string)

  /** A response body: the bytes that could be read (one char per byte) and
      how reading ended after them. */
  datatype Body = Body(text: string, end: BodyEnd)

  /** The outcome of `HTTPClient.Do`, retries included: no response at all,
      or a status code with a body. */
  datatype Transport = Failed(reason: string) | Responded(status: int, body: Body)

  /** The errors a call returns. */
  datatype Failure =
    | Api(api: APIError)          // the APIError decoded from a non-200 body
    | StatusOnly(status: int)     // a non-200 body that did not decode
    | TransportError(reason: string)
    | DecodeError(reason: string) // the JSON decoder's error on a 200 body
    | MarshalError(reason: string)
    | InvalidMode(mode: string)

  const StatusPrefix: string := "status code: "
  const InvalidModePrefix: string := "invalid response_mode: "

  /** The fallback message for a non-200 response whose body is not an APIError. */
  function StatusText(status: int): (s: string)
    ensures |s| > |StatusPrefix| && s[..|StatusPrefix|] == StatusPrefix
    ensures IsNumeral(s[|StatusPrefix|..]) && ParseInt(s[|StatusPrefix|..]) == status
  {
    var s := StatusPrefix + IntText(status);
    assert s[|StatusPrefix|..] == IntText(status);
    ParseIntText(status);
    s
  }

  /** The text of the error, as its `Error()` method renders it. */
  function FailureText(f: Failure): (s: string)
    ensures f.Api? ==> s == ErrorText(f.api) && StatusOfText(s) == Some(f.api.statusCode)
    ensures f.StatusOnly? ==> |s| > |StatusPrefix| && s[..|StatusPrefix|] == StatusPrefix
                              && IsNumeral(s[|StatusPrefix|..]) && ParseInt(s[|StatusPrefix|..]) == f.status
    ensures f.TransportError? || f.DecodeError? || f.MarshalError? ==> s == f.reason
    ensures f.InvalidMode? ==> |s| >= |InvalidModePrefix| && s[..|InvalidModePrefix|] == InvalidModePrefix
                               && s[|InvalidModePrefix|..] == f.mode
  {
    match f
    case Api(a) => StatusRecoverable(a); ErrorText(a)
    case StatusOnly(n) => StatusText(n)
    case TransportError(m) => m
    case DecodeError(m) => m
    case MarshalError(m) => m
    case InvalidMode(mode) => InvalidModePrefix + mode
  }

  /** The code a failure carries when it is reported as a chunk: the
      APIError's own code, otherwise none. */
  function FailureCode(f: Failure): string {
    if f.Api? then f.api.code else ""
  }

  /** The message a failure carries when it is reported as a chunk: the
      APIError's own message (not its `Error()` text), otherwise the
      error's text. */
  function FailureMessage(f: Failure): string {
    if f.Api? then f.api.message else FailureText(f)
  }

  /** The response classifier: a 200 body is decoded as the expected reply;
      any other status yields the decoded APIError unchanged, or the
      status-only error when the body is not one. */
  function Classify<T>(status: int, body: Body, apiError: Body -> Option<APIError>,
                       decode: Body -> Result<T, string>): (r: Result<T, Failure>)
    ensures r.Ok? ==> status == 200 && decode(body) == Ok(r.value)
    ensures r.Err? && status == 200 ==> decode(body).Err? && r.error == DecodeError(decode(body).error)
    ensures status != 200 ==> r.Err? && (r.error.Api? || r.error.StatusOnly?)
  {
    if status != 200 then
      match apiError(body)
      case None => Err(StatusOnly(status))
      case Some(a) => Err(Api(a))
    else
      match decode(body)
      case Ok(v) => Ok(v)
      case Err(m) => Err(DecodeError(m))
  }

  /** A blocking exchange: the transport's outcome, classified. */
  function Complete<T>(net: Transport, apiError: Body -> Option<APIError>,
                       decode: Body -> Result<T, string>): (r: Result<T, Failure>)
    ensures net.Failed? ==> r == Err(TransportError(net.reason))
    ensures net.Responded? ==> r == Classify(net.status, net.body, apiError, decode)
  {
    match net
    case Failed(m) => Err(TransportError(m))
    case Responded(status, body) => Classify(status, body, apiError, decode)
  }

  /** On a non-200 response the error is the decoded APIError exactly as the
      body gave it (its status code is not reconciled with the response's),
      or, when the body is not an APIError, an error whose text is
      "status code: N" and from which N can be read back. */
  lemma {:induction false} ClassifyNonSuccess<T>(status: int, body: Body, apiError: Body -> Option<APIError>,
                              decode: Body -> Result<T, string>)
    requires status != 200
    ensures apiError(body).Some? ==> Classify(status, body, apiError, decode) == Err(Api(apiError(body).value))
    ensures apiError(body).None? ==>
              && Classify(status, body, apiError, decode) == Err(StatusOnly(status))
              && FailureText(StatusOnly(status)) == StatusPrefix + IntText(status)
  {
  }

  /** On a 200 response exactly one of value and error is present, and which
      one is decided by the reply decoder alone: the APIError decoder is not
      consulted. */
  lemma {:induction false} ClassifySuccess<T>(body: Body, apiError1: Body -> Option<APIError>,
                           apiError2: Body -> Option<APIError>, decode: Body -> Result<T, string>)
    ensures Classify(200, body, apiError1, decode) == Classify(200, body, apiError2, decode)
    ensures Classify(200, body, apiError1, decode).Ok? <==> decode(body).Ok?
  {
  }
}

=== FILE: stop.dfy ===
/** Stopping a streaming task. */
module Stop {
  import opened Wrappers
  import opened Client
  import opened Responses
  import opened Dispatch

  const ChatMessages: string := "/chat-messages/"
  const StopSuffix: string := "/stop"

  /** The stop endpoint of a task: the id sits between the two fixed parts. */
  function StopEndpoint(taskId: string): (e: string)
    ensures |e| == |ChatMessages| + |taskId| + |StopSuffix|
    ensures e[..|ChatMessages|] == "/chat-messages/"
    ensures e[|ChatMessages|..|e| - |StopSuffix|] == taskId
    ensures e[|e| - |StopSuffix|..] == "/stop"
  {
    ChatMessages + taskId + StopSuffix
  }

  /** Different task ids address different stop URLs. */
  lemma {:induction false} StopEndpointInjective(a: string, b: string)
    requires StopEndpoint(a) == StopEndpoint(b)
    ensures a == b
  {
    var e := StopEndpoint(a);
    assert a == e[|ChatMessages|..|e| - |StopSuffix|];
  }

  /** The request body: the single entry "user". */
  function StopBody(user: string): (m: map<string, string>)
    ensures m.Keys == {"user"} && m["user"] == user
  {
    map["user" := user]
  }

  /** Stops a task: a POST of the encoded `{"user": user}` to
      "/chat-messages/<task>/stop", classified like every blocking
      response. `encode` is the JSON encoder; when it fails nothing is sent. */
  function StopTask<T>(c: Config, taskId: string, user: string,
                       encode: map<string, string> -> Result<string, string>,
                       apiError: Body -> Option<Errors.APIError>, reply: Body -> Result<T, string>,
                       net: Transport): (a: Answer<T>)
    ensures encode(StopBody(user)).Err? ==>
              a.outcome == Err(MarshalError(encode(StopBody(user)).error)) && a.issued.None?
    ensures encode(StopBody(user)).Ok? ==>
              a.issued == Some(NewRequest(c, "POST", StopEndpoint(taskId), Some(encode(StopBody(user)).value)))
    ensures a.issued.Some? ==> && a.issued.value.verb == "POST"
                               && a.issued.value.url == c.baseURL + "/chat-messages/" + taskId + "/stop"
                               && a.issued.value.body == Some(encode(StopBody(user)).value)
    ensures a.issued.Some? && net.Failed? ==> a.outcome == Err(TransportError(net.reason))
    ensures a.issued.Some? && net.Responded? && net.status != 200 && apiError(net.body).Some? ==>
              a.outcome == Err(Api(apiError(net.body).value))
    ensures a.issued.Some? && net.Responded? && net.status != 200 && apiError(net.body).None? ==>
              a.outcome == Err(StatusOnly(net.status))
    ensures a.issued.Some? && net.Responded? && net.status == 200 && reply(net.body).Ok? ==>
              a.outcome == Ok(reply(net.body).value)
    ensures a.issued.Some? && net.Responded? && net.status == 200 && reply(net.body).Err? ==>
              a.outcome == Err(DecodeError(reply(net.body).error))
    ensures a.outcome.Ok? ==>
              a.issued.Some? && net.Responded? && net.status == 200 && reply(net.body) == Ok(a.outcome.value)
  {
    match encode(StopBody(user))
    case Err(m) => Answer(Err(MarshalError(m)), None)
    case Ok(bytes) =>
      Answer(Complete(net, apiError, reply), Some(NewRequest(c, "POST", StopEndpoint(taskId), Some(bytes))))
  }
}

=== FILE: streamprops.dfy ===
/** What the streaming task guarantees its consumer: error reporting,
    ordering, counting, end-of-body handling and cancellation. */
module StreamProperties {
  import opened Wrappers
  import opened Models
  import opened Responses
  import opened LineReader
  import opened EventStream

  /** The line rule: a line contributes an entry exactly when it starts with
      "data: "; the entry is the chunk decoded from the rest of the line, or
      one error chunk with the decoder's message. */
  lemma {:induction false} LineRule(line: string, decode: ChunkDecoder)
    ensures |LineEmission(line, decode)| == 1 <==> |line| >= 6 && line[..6] == "data: "
    ensures |LineEmission(line, decode)| == 1 ==>
              var p := line[6..];
              && line == DataPrefix + p
              && (decode(p).Ok? ==> LineEmission(line, decode) == [Data(decode(p).value)])
              && (decode(p).Err? ==> LineEmission(line, decode) == [Reported(decode(p).error)])
  {
  }

  lemma {:induction false} LineEmissionsSingle(l: string, decode: ChunkDecoder)
    ensures LineEmissions([l], decode) == LineEmission(l, decode)
  {
    assert [l][1..] == [];
    assert LineEmission(l, decode) + [] == LineEmission(l, decode);
  }

  /** Each line is handled on its own: the entries of a concatenation of
      lines are the entries of each part, in order. */
  lemma {:induction false} LineEmissionsAppend(a: seq<string>, b: seq<string>, decode: ChunkDecoder)
    ensures LineEmissions(a + b, decode) == LineEmissions(a, decode) + LineEmissions(b, decode)
    decreases |a|
  {
    if |a| == 0 {
      assert a + b == b;
    } else {
      assert (a + b)[0] == a[0];
      assert (a + b)[1..] == a[1..] + b;
      LineEmissionsAppend(a[1..], b, decode);
      Associative(LineEmission(a[0], decode), LineEmissions(a[1..], decode), LineEmissions(b, decode));
    }
  }

  /** A payload that does not decode is reported by one error chunk in its
      line's place, and the lines after it are still read. */
  lemma {:induction false} MalformedLineReported(ls: seq<string>, i: nat, decode: ChunkDecoder)
    requires i < |ls|
    requires Payload(ls[i]).Some? && decode(Payload(ls[i]).value).Err?
    ensures LineEmissions(ls, decode) ==
              LineEmissions(ls[..i], decode)
              + [Reported(decode(Payload(ls[i]).value).error)]
              + LineEmissions(ls[i + 1..], decode)
  {
    var before := ls[..i];
    var after := ls[i + 1..];
    var m := decode(Payload(ls[i]).value).error;
    assert ls == before + ([ls[i]] + after);
    LineEmissionsAppend(before, [ls[i]] + after, decode);
    LineEmissionsAppend([ls[i]], after, decode);
    LineEmissionsSingle(ls[i], decode);
    Associative(LineEmissions(before, decode), [Reported(m)], LineEmissions(after, decode));
  }

  /** Every line is a data line whose payload decodes. */
  predicate WellFormed(ls: seq<string>, decode: ChunkDecoder) {
    forall i :: 0 <= i < |ls| ==> Payload(ls[i]).Some? && decode(Payload(ls[i]).value).Ok?
  }

  /** The chunks decoded from well-formed lines, in line order. */
  function Decoded(ls: seq<string>, decode: ChunkDecoder): (cs: seq<Chunk>)
    requires WellFormed(ls, decode)
    ensures |cs| == |ls|
  {
    seq(|ls|, i requires 0 <= i < |ls| && WellFormed(ls, decode) => decode(Payload(ls[i]).value).value)
  }

  /** N well-formed lines give exactly N wire chunks, in line order, and no
      error chunk. */
  lemma {:induction false} WellFormedLines(ls: seq<string>, decode: ChunkDecoder)
    requires WellFormed(ls, decode)
    ensures |LineEmissions(ls, decode)| == |ls|
    ensures forall i :: 0 <= i < |ls| ==> LineEmissions(ls, decode)[i] == Data(Decoded(ls, decode)[i])
    decreases |ls|
  {
    if |ls| > 0 {
      assert WellFormed(ls[1..], decode) by {
        forall i | 0 <= i < |ls| - 1
          ensures Payload(ls[1..][i]).Some? && decode(Payload(ls[1..][i]).value).Ok?
        {
          assert ls[1..][i] == ls[i + 1];
        }
      }
      WellFormedLines(ls[1..], decode);
      var head := LineEmission(ls[0], decode);
      assert head == [Data(Decoded(ls, decode)[0])];
      forall i | 0 < i < |ls|
        ensures LineEmissions(ls, decode)[i] == Data(Decoded(ls, decode)[i])
      {
        assert LineEmissions(ls, decode)[i] == LineEmissions(ls[1..], decode)[i - 1];
        assert Decoded(ls[1..], decode)[i - 1] == Decoded(ls, decode)[i];
      }
    }
  }

  /** Without cancellation every entry is delivered, in order. */
  lemma {:induction false} DeliverUncancelled(es: seq<Emission>)
    ensures Deliver(es, None) == Chunks(es)
    decreases |es|
  {
    if |es| > 0 {
      DeliverUncancelled(es[1..]);
      assert Chunks(es) == [es[0].chunk] + Chunks(es[1..]);
    }
  }

  /** Cancellation only truncates: what is delivered is a prefix of what
      would have been, and the cut falls exactly at the wire chunk whose
      `select` saw the cancellation, after the `k` wire chunks before it. */
  lemma {:induction false} DeliverCut(es: seq<Emission>, k: nat)
    ensures Deliver(es, Some(k)) <= Deliver(es, None)
    ensures var n := |Deliver(es, Some(k))|;
            n == |es| || (es[n].Data? && DataCount(es[..n]) == k)
    decreases |es|
  {
    if |es| > 0 {
      var c := es[0].chunk;
      var cut := Deliver(es, Some(k));
      var n := |cut|;
      if es[0].Notice? || k > 0 {
        var k' := if es[0].Notice? then k else k - 1;
        DeliverCut(es[1..], k');
        assert cut == [c] + Deliver(es[1..], Some(k'));
        assert Deliver(es, None) == [c] + Deliver(es[1..], None);
        if n < |es| {
          assert es[n] == es[1..][n - 1];
          assert es[..n] == [es[0]] + es[1..][..n - 1];
          assert es[..n][1..] == es[1..][..n - 1];
        }
      } else {
        assert cut == [];
        assert es[..0] == [];
      }
    }
  }

  /** A transport failure: one error chunk with its message, then the close. */
  lemma {:induction false} TransportFailureTrace(reason: string, decode: ChunkDecoder, apiError: ErrorDecoder, cancel: Option<nat>)
    ensures StreamTrace(Failed(reason), decode, apiError, cancel) == [Send(ErrorChunk("", reason)), Close]
  {
    DeliverCons(Reported(reason), [], cancel);
    assert [Reported(reason)] + [] == [Reported(reason)];
  }

  /** Any status other than exactly 200, other 2xx codes included: exactly
      one chunk, an error carrying the decoded APIError's code and message
      or the "status code: N" message, then the close. The body's lines are
      never read. */
  lemma {:induction false} NonSuccessTrace(status: int, body: Body, decode: ChunkDecoder, apiError: ErrorDecoder,
                        cancel: Option<nat>)
    requires status != 200
    ensures var t := StreamTrace(Responded(status, body), decode, apiError, cancel);
            && |t| == 2 && t[1] == Close
            && t[0].Send? && t[0].chunk.event == "error"
            && (apiError(body).Some? ==>
                  t[0].chunk.code == apiError(body).value.code && t[0].chunk.message == apiError(body).value.message)
            && (apiError(body).None? ==> t[0].chunk.code == "" && t[0].chunk.message == StatusText(status))
  {
    var ch := StatusChunk(status, body, apiError);
    DeliverCons(Notice(ch), [], cancel);
    assert [Notice(ch)] + [] == [Notice(ch)];
  }

  /** The streaming error chunk for a non-200 response carries the code and
      message of the error a blocking call returns for the same response. */
  lemma {:induction false} StreamMatchesBlocking<T>(status: int, body: Body, apiError: ErrorDecoder,
                                 reply: Body -> Result<T, string>)
    requires status != 200
    ensures var f := Classify(status, body, apiError, reply).error;
            StatusChunk(status, body, apiError) == ErrorChunk(FailureCode(f), FailureMessage(f))
  {
  }

  /** A clean end of stream adds no chunk; a read error adds exactly one
      error chunk with its message, after everything read before it. */
  lemma {:induction false} BodyEnding(text: string, reason: string, decode: ChunkDecoder)
    ensures BodyEmissions(Body(text, CleanEOF), decode) == LineEmissions(Lines(text), decode)
    ensures BodyEmissions(Body(text, ReadError(reason)), decode) ==
              BodyEmissions(Body(text, CleanEOF), decode) + [Reported(reason)]
  {
    assert LineEmissions(Lines(text), decode) + [] == LineEmissions(Lines(text), decode);
  }

  /** A final fragment without '\n' is discarded. */
  lemma {:induction false} FragmentDiscarded(ls: seq<string>, f: string, end: BodyEnd, decode: ChunkDecoder)
    requires forall i :: 0 <= i < |ls| ==> IsLine(ls[i])
    requires NoNewline(f)
    ensures BodyEmissions(Body(Join(ls) + f, end), decode) == BodyEmissions(Body(Join(ls), end), decode)
  {
    FragmentDropped(ls, f);
  }

  /** With status 200, a clean end of stream and no cancellation, a body of
      N well-formed data lines yields exactly their N chunks, in body order,
      then the close. */
  lemma {:induction false} WellFormedStream(ls: seq<string>, decode: ChunkDecoder, apiError: ErrorDecoder)
    requires forall i :: 0 <= i < |ls| ==> IsLine(ls[i])
    requires WellFormed(ls, decode)
    ensures StreamTrace(Responded(200, Body(Join(ls), CleanEOF)), decode, apiError, None) == Frame(Decoded(ls, decode))
    ensures forall e :: e in Emissions(Responded(200, Body(Join(ls), CleanEOF)), decode, apiError) ==> e.Data?
  {
    LinesOfJoin(ls, "");
    assert Join(ls) + "" == Join(ls);
    WellFormedLines(ls, decode);
    var es := Emissions(Responded(200, Body(Join(ls), CleanEOF)), decode, apiError);
    assert es == LineEmissions(ls, decode) + [];
    DeliverUncancelled(es);
    assert Chunks(es) == Decoded(ls, decode);
  }

  /** Cancellation can only truncate the trace: the chunks sent are a prefix
      of those an uncancelled task sends, and the channel is still closed
      exactly once, last. */
  lemma {:induction false} CancellationTruncates(net: Transport, decode: ChunkDecoder, apiError: ErrorDecoder, k: nat)
    ensures var cut := StreamTrace(net, decode, apiError, Some(k));
            var full := StreamTrace(net, decode, apiError, None);
            && ClosedOnce(cut)
            && |cut| <= |full|
            && cut[..|cut| - 1] <= full[..|full| - 1]
  {
    var es := Emissions(net, decode, apiError);
    DeliverCut(es, k);
    var a := Deliver(es, Some(k));
    var b := Deliver(es, None);
    var cut := Frame(a);
    var full := Frame(b);
    assert |a| <= |b|;
    forall i | 0 <= i < |a|
      ensures cut[i] == full[i]
    {
      assert a[i] == b[i];
    }
  }

  /** Text without '\n', terminated by one, is a complete line. */
  lemma {:induction false} LiteralLine(p: string)
    requires '\n' !in p
    ensures IsLine(p + "\n")
  {
    var l := p + "\n";
    assert l[..|l| - 1] == p;
    forall j | 0 <= j < |p|
      ensures p[j] != '\n'
    {
      assert p[j] in p;
    }
  }

  const TextA: string := "{\"event\":\"message\",\"answer\":\"A\"}"
  const TextB: string := "{\"event\":\"message\",\"answer\":\"B\"}"
  const PayloadA: string := TextA + "\n"
  const PayloadB: string := TextB + "\n"
  const LineA: string := DataPrefix + PayloadA
  const LineKeepAlive: string := ": keep-alive\n"
  const LineB: string := DataPrefix + PayloadB

  /** A data line whose payload decodes contributes exactly that chunk. */
  lemma {:induction false} DataLineEmission(p: string, decode: ChunkDecoder, c: Chunk)
    requires decode(p) == Ok(c)
    ensures LineEmission(DataPrefix + p, decode) == [Data(c)]
  {
    PayloadOfDataLine(p);
  }

  /** A line that does not start with 'd' is not a data line and
      contributes nothing. */
  lemma {:induction false} CommentLineEmission(line: string, decode: ChunkDecoder)
    requires |line| > 0 && line[0] != DataPrefix[0]
    ensures LineEmission(line, decode) == []
  {
    if |line| >= |DataPrefix| {
      assert line[..|DataPrefix|][0] != DataPrefix[0];
    }
  }

  lemma {:induction false} ScenarioLines()
    ensures Lines(LineA + LineKeepAlive + LineB) == [LineA, LineKeepAlive, LineB]
  {
    var ls := [LineA, LineKeepAlive, LineB];
    LiteralLine(DataPrefix + TextA);
    assert (DataPrefix + TextA) + "\n" == LineA;
    LiteralLine(": keep-alive");
    LiteralLine(DataPrefix + TextB);
    assert (DataPrefix + TextB) + "\n" == LineB;
    assert forall i :: 0 <= i < |ls| ==> IsLine(ls[i]);
    assert Join(ls) == LineA + LineKeepAlive + LineB by {
      assert Join(ls[2..]) == LineB + "";
    }
    LinesOfJoin(ls, "");
    assert Join(ls) + "" == Join(ls);
  }

  lemma {:induction false} ScenarioEmissions(decode: ChunkDecoder, a: Chunk, b: Chunk)
    requires decode(PayloadA) == Ok(a)
    requires decode(PayloadB) == Ok(b)
    ensures LineEmissions([LineA, LineKeepAlive, LineB], decode) == [Data(a), Data(b)]
  {
    DataLineEmission(PayloadA, decode, a);
    CommentLineEmission(LineKeepAlive, decode);
    DataLineEmission(PayloadB, decode, b);
    LineEmissionsAppend([LineA], [LineKeepAlive, LineB], decode);
    LineEmissionsAppend([LineKeepAlive], [LineB], decode);
    assert [LineA, LineKeepAlive, LineB] == [LineA] + [LineKeepAlive, LineB];
    assert [LineKeepAlive, LineB] == [LineKeepAlive] + [LineB];
    LineEmissionsSingle(LineA, decode);
    LineEmissionsSingle(LineKeepAlive, decode);
    LineEmissionsSingle(LineB, decode);
  }

  /** A body of two data lines around a keep-alive comment line yields the
      two decoded chunks, in order, then the close: the comment line is
      skipped. */
  lemma {:induction false} KeepAliveSkipped(decode: ChunkDecoder, apiError: ErrorDecoder, a: Chunk, b: Chunk)
    requires decode(PayloadA) == Ok(a)
    requires decode(PayloadB) == Ok(b)
    ensures StreamTrace(Responded(200, Body(LineA + LineKeepAlive + LineB, CleanEOF)), decode, apiError, None)
            == [Send(a), Send(b), Close]
  {
    ScenarioLines();
    ScenarioEmissions(decode, a, b);
    var es := [Data(a), Data(b)];
    assert BodyEmissions(Body(LineA + LineKeepAlive + LineB, CleanEOF), decode) == es by {
      assert es + [] == es;
    }
    DeliverUncancelled(es);
    assert Chunks(es) == [a, b];
  }
}

=== FILE: workflow.dfy ===
/** Running a workflow and reading a run's status. */
module Workflow {
  import opened Wrappers
  import opened Models
  import opened Errors
  import opened Client
  import opened Responses
  import opened Dispatch

  const RunEndpoint: string := "/workflows/run"

  /** Runs a workflow in the requested mode against "/workflows/run". */
  function RunWorkflow<X, T>(c: Config, req: ModalRequest<X>, codec: Codec<X, T>,
                             net: Transport, cancel: Option<nat>): (r: Reply<T>)
    ensures r.issued.Some? ==> r.issued.value.url == c.baseURL + "/workflows/run"
    ensures Present(r) == 1
  {
    Exchange(c, RunEndpoint, req, codec, net, cancel)
  }

  /** The status endpoint of one run. */
  function StatusEndpoint(runId: string): (e: string)
    ensures |e| == |RunEndpoint| + 1 + |runId|
    ensures e[..|RunEndpoint| + 1] == "/workflows/run/" && e[|RunEndpoint| + 1..] == runId
  {
    RunEndpoint + "/" + runId
  }

  /** Reads a run's status: a GET without a body to
      "/workflows/run/<id>", classified like every blocking response. */
  function GetWorkflowStatus<T>(c: Config, runId: string, apiError: Body -> Option<APIError>,
                                reply: Body -> Result<T, string>, net: Transport): (a: Answer<T>)
    ensures a.issued == Some(NewRequest(c, "GET", StatusEndpoint(runId), None))
    ensures a.issued.Some? && a.issued.value.verb == "GET" && a.issued.value.body.None?
    ensures a.issued.value.url == c.baseURL + "/workflows/run/" + runId
    ensures net.Failed? ==> a.outcome == Err(TransportError(net.reason))
    ensures net.Responded? && net.status != 200 && apiError(net.body).Some? ==>
              a.outcome == Err(Api(apiError(net.body).value))
    ensures net.Responded? && net.status != 200 && apiError(net.body).None? ==>
              a.outcome == Err(StatusOnly(net.status))
    ensures net.Responded? && net.status == 200 && reply(net.body).Ok? ==> a.outcome == Ok(reply(net.body).value)
    ensures net.Responded? && net.status == 200 && reply(net.body).Err? ==>
              a.outcome == Err(DecodeError(reply(net.body).error))
  {
    Answer(Complete(net, apiError, reply), Some(NewRequest(c, "GET", StatusEndpoint(runId), None)))
  }

  /** Different run ids address different status URLs. */
  lemma {:induction false} StatusEndpointInjective(a: string, b: string)
    requires StatusEndpoint(a) == StatusEndpoint(b)
    ensures a == b
  {
    assert a == StatusEndpoint(a)[|RunEndpoint| + 1..];
  }
}

=== FILE: wrappers.dfy ===
/** Optional values and success-or-failure results: the model's stand-ins for
    Go's nil pointers and its (value, error) return pairs. */
module Wrappers {

  /** A value that may be absent (a nil pointer or a nil error in Go). */
  datatype Option<+T> = None | Some(value: T)

  /** Either a value or the error that prevented it. */
  datatype Result<+T, +E> = Ok(value: T) | Err(error: E)
}
